=== FILE: README.md ===
# HID report descriptor tools, modelled in Dafny

This project models the core of a small set of tools for binary USB HID
report descriptors (HID 1.11, section 6.2.2, "Report Descriptor"):

- **Item decoder** (`hid_read.dfy`, module `HidRead`, from hid_read.py). It
  splits a header byte into size, type and tag. It cuts a descriptor into
  item blocks, where the long-item header 0xFE carries its own data size.
  It decodes one block into `{type, tag, data}`.
- **Scoped state machine** (`hid_state_table.dfy`, module `StateTable`).
  This is `_add_state`, `_remove_local_state`, `_mark_global_state` and
  `update_state_table`. hid_importance.py:34-85 and hid_state.py:25-76 hold
  identical copies of this code, so it is defined once and both drivers
  use it. The stack of attribute tables is keyed by `(type, tag)`:
  - a Main item drops the Local attributes and marks the rest used;
  - Push duplicates the live table and Pop discards it;
  - every other item goes through the record-or-suppress rule, which may
    report the index of an item as redundant (the source calls it
    removable; see below for why that is not a guarantee).
- **`list_item_importance`** (`hid_importance.dfy`, module `Importance`).
  It gives one keep/remove flag per item.
- **`get_state_tables`** (`hid_state.dfy`, module `Snapshots`). It gives
  one snapshot per Main item: the index, the raw block, and a copy of the
  live table taken before the item is applied.
- **`compare`** (`hid_compare.dfy`, module `Compare`). It pairs the
  snapshots of two descriptors in order. For each pair it compares the raw
  bytes first, then the tables reduced to their values.

`results.dfy` holds the `Option` and `Result` types. Python exceptions
become `Err` cases:
- IndexError of the reader on a truncated item (its EOFError at a clean
  end of input is caught by `read_hid_binary_items` and becomes the `Ok`
  end of `HidRead.ReadItems`);
- NotImplementedError of a Reserved item;
- IndexError of `stack[-1]` in `get_state_tables`;
- the `Exception` of `compare_state_tables`.

Both drivers loop over the state machine. They are written over any step
function with the signature of `update_state_table` (`StateTable.StepFn`).
What they need from that step is stated as `StateTable.StateMachineContract`:
1. the step fails exactly on Reserved items;
2. it records and reports only indices of attribute items already seen;
3. it never leaves an unused Local entry.

`StateTable.UpdateStateTableContract` proves that `UpdateStateTable` meets
this contract. `ListItemImportance` and `GetStateTables` use `UpdateStateTable`.
The reference each driver is checked against is `StateTable.Replay`: the
state-machine stack just before item n, built by feeding the first n
decoded items in order from an empty stack.

The model follows the code as written, including these behaviours:

- **Equal value.** When an attribute repeats the value already recorded,
  `_add_state` reports the new item's own index. So the *later* item is
  marked removable (`StateTable.RepeatedValueReportsLaterItem`).
- **Different value over an unused entry.** `_add_state` reports the old
  item's index and returns before storing. The table keeps the old value,
  so the next Main item's snapshot still shows it
  (`StateTable.UnusedOverwriteKeepsOldValue`). As a result, `compare`
  treats "Logical Minimum 0, Logical Minimum 1, Input" as equal to
  "Logical Minimum 0, Input".
- **A False flag is not a safe-removal guarantee.** The source describes
  items flagged False as safe to remove, but the record-or-suppress rule
  only looks at the live table. In "Logical Minimum 0, Push, Logical
  Minimum 1, Pop, Input", item 2 meets the pushed copy of item 0's unused
  entry and reports item 0, so item 0 is flagged False
  (`Importance.RemovedItemStillInEffect`). The Pop then discards the copy,
  and the Input item sees item 0's value. Without item 0 it sees an empty
  table (`Importance.DroppingFlaggedItemChangesInput`).
- **Pop never fails.** Popping the lone base table leaves the stack empty;
  the next update re-creates an empty base table.
- **Long items always fail.** A long item keeps type 3 when decoded, so the
  state machine rejects it as Reserved.
- **`get_state_tables` reads `stack[-1]` before updating.** A Main item that
  comes first, or right after a Pop of the base table, fails with an
  IndexError.
- **`compare` uses `zip`.** Snapshots past the shorter list are never
  compared, so a descriptor matches any extension of itself whose state
  tables can be built (`Compare.ExtraMainItemsIgnored`). An extension that
  adds a Reserved item, or a Main item before any table exists, makes
  `get_state_tables` raise, and `compare` lets that exception out.
- **A cut-short item loses everything.** The reader raises IndexError out of
  `read_hid_binary_items`, and the blocks read before it are not returned.

## Model

| member | source | states |
|---|---|---|
| HidRead.ParseMeta | hid_read.py:11-15 | The header fields are in range (size < 4, type < 4, tag < 16), and 16·tag + 4·type + size rebuilds the byte |
| HidRead.MetaRoundTrip | hid_read.py:11-15 | Splitting a header and reassembling its fields gives back the byte; every valid field triple is the split of exactly one byte |
| HidRead.IsLongItem | hid_read.py:18-20 | `_is_long_item`: the header's size is 2, its type 3 and its tag 15; `HidRead.LongItemHeader` shows this is exactly the byte 0xFE |
| HidRead.LongItemHeader | hid_read.py:18-20 | `_is_long_item` holds exactly for the byte 0xFE |
| HidRead.PayloadLength | hid_read.py:33-36 | Size codes 0, 1 and 2 are payload lengths 0, 1 and 2; code 3, and only code 3, is 4 bytes |
| HidRead.NextItemBytes | hid_read.py:23-51 | Three outcomes. Clean end exactly on empty input. Otherwise the next complete block and the rest, which concatenate back to the input. IndexError exactly when no prefix of the input is a complete block |
| HidRead.ItemBlockPrefixUnique | hid_read.py:30-51 | A descriptor starts with at most one complete item block, so splitting is unambiguous |
| HidRead.NextItemBytesOfBlock | hid_read.py:30-51 | Input that starts with a complete block (short: 1 + payload bytes; long: 3 + dataSize bytes) yields exactly that block and the rest |
| HidRead.ReadItems | hid_read.py:63-72 | When reading succeeds, every result is a complete block and the blocks concatenate back to the input |
| HidRead.ReadItemsOfConcat | hid_read.py:63-72 | Any sequence of complete blocks, laid end to end, reads back as exactly those blocks. With ReadItems, reading succeeds exactly when the input ends on a block boundary |
| HidRead.TruncatedBlockFails | hid_read.py:37-49 | Input that ends part-way into a block is the IndexError and never the clean end, whatever complete blocks come before it |
| HidRead.ParseItemBytes | hid_read.py:54-60 | The type is the header's. A short item keeps the header's tag and its data is everything after the header. A long item has type 3, tag `buf[2]`, and data `buf[3:]` |
| HidRead.ItemBlockParseable | hid_read.py:54-60 | Every block the reader produces can be decoded without an IndexError |
| HidRead.ParsedDataLength | hid_read.py:54-60 | A decoded short block's data is as long as its payload; a long block's data is dataSize bytes |
| HidRead.ShortItemRoundTrip | hid_read.py:54-60 | An encodable short item, written as header plus payload, is one block and decodes to its own type, tag and data |
| HidRead.LongItemRoundTrip | hid_read.py:54-60 | A long item written as 0xFE, dataSize, longTag, data is one block and decodes to type 3, its long tag and its data |
| HidRead.ParseAll | hid_importance.py:92-93 | Decoding every block keeps one item per block, in order |
| StateTable.ItemKey | hid_importance.py:21-22 | `_get_item_key`: an item's table key is its (type, tag) pair; the state-machine lemmas below state what is recorded under it |
| StateTable.IsLocalKey | hid_importance.py:29-31 | `_table_key_is_local`: a key is Local exactly when its type is 2; `StateTable.RemoveLocalState` and `StateTable.MainItemClearsLocals` state its use |
| StateTable.EnsureBase | hid_importance.py:65-66 | The stack an update works on is never empty: a non-empty stack is kept as it is, an empty one gets exactly one empty table |
| StateTable.WithTop | hid_importance.py:67 | Changing the live table `stack[-1]` in place: the same height, the new live table, every lower frame unchanged |
| StateTable.AddState | hid_importance.py:34-49 | Record-or-suppress. Absent key: insert {value, used = (type is Local), index} and report nothing. Equal value: report the current index, table unchanged. Different unused value: report the stored index, table unchanged. Different used value: replace the entry, report nothing |
| StateTable.RemoveLocalState | hid_importance.py:58-61 | The result holds exactly the non-Local keys of the table, with their entries unchanged |
| StateTable.MarkGlobalState | hid_importance.py:52-55 | Same keys. Every Global entry becomes used with its value and index unchanged; Local entries are untouched |
| StateTable.UpdateStateTable | hid_importance.py:64-85 | Fails exactly on type 3, with that type and index. Only attribute items (Local, or Global other than Push/Pop) can report a removable index |
| StateTable.MainItemClearsLocals | hid_importance.py:67-72 | After a Main item the live table has no Local keys, every entry left is used with its value and index unchanged, and lower frames are untouched |
| StateTable.PushDuplicatesTop | hid_importance.py:74-76 | Push makes the stack one longer, with lower frames unchanged and the new top equal to the old top |
| StateTable.PopDiscardsTop | hid_importance.py:77-78 | Pop removes the live table and never fails |
| StateTable.AttributeItemAddsState | hid_importance.py:79-82 | Every attribute item goes through `_add_state` on the live table only |
| StateTable.PushThenPop | hid_importance.py:74-78 | A Push followed at once by a Pop gives back the stack |
| StateTable.PopOfBaseEmptiesStack | hid_importance.py:65-78 | Pop on the lone base table, or on an empty stack, succeeds and leaves the stack empty |
| StateTable.UpdateWithoutPushKeepsBase | hid_importance.py:64-85 | An update that is not a Push never takes a stack of at most one table above one table |
| StateTable.RepeatedValueReportsLaterItem | hid_importance.py:42-44 | Usage Page 1 twice, then Input: the second Usage Page reports its own index 1, and the Input item marks the entry used |
| StateTable.UnusedOverwriteKeepsOldValue | hid_importance.py:45-48 | Logical Minimum 0 then Logical Minimum 1: item 0 is reported, value 0 is kept, and the Input item sees 0 |
| StateTable.UpdateKeepsLocalsUsed | hid_importance.py:37-48 | No update ever leaves an unused Local entry in any frame |
| StateTable.UpdateKeepsIndicesWithin | hid_importance.py:42-48 | An update records only the current index, and only for an attribute item. The index it reports is the current one or one already recorded |
| StateTable.UpdateFailsOnReservedOnly | hid_importance.py:83-84 | `update_state_table` fails on Reserved items only, naming the item's type and index |
| StateTable.UpdateKeepsAllIndicesWithin | hid_importance.py:42-48 | The index property above holds for every call of `update_state_table` |
| StateTable.UpdateKeepsAllLocalsUsed | hid_importance.py:37-48 | The Local-used property above holds for every call of `update_state_table` |
| StateTable.UpdateStateTableContract | hid_importance.py:64-85 | `update_state_table` meets the whole contract the drivers rely on |
| StateTable.FoldAppend | hid_importance.py:92-96 | Feeding two runs of items back to back is feeding the second from where the first stopped; an error stops everything |
| StateTable.FoldFailsAtFirstReserved | hid_importance.py:83-84 | With a step that fails only on Reserved items, a replay fails exactly when a Reserved item occurs, and then with the first one's error |
| StateTable.RunItemsFailsAtFirstReserved | hid_importance.py:92-94 | Replaying items through `update_state_table` fails exactly at the first Reserved item, and no other item fails |
| StateTable.NestedPushPop | hid_importance.py:74-78 | n Pushes followed by n Pops give back any non-empty stack |
| StateTable.ReplayStep | hid_importance.py:92-96 | Replaying the first i + 1 items is replaying the first i and then applying the update of item i at index i, as the `enumerate` loop does |
| Importance.ImportanceFrom | hid_importance.py:92-96 | The loop keeps one flag per item; every write to the flags is in range |
| Importance.ImportanceFromFailsAtFirstReserved | hid_importance.py:92-96 | The loop fails exactly when a Reserved item is still to come, with the first one's NotImplementedError |
| Importance.ReplayIndicesWithin | hid_importance.py:94-96 | The stack before item n holds only indices of earlier attribute items. The index the update of item m reports is an attribute item at or before m, so `result[ret]` is in range |
| Importance.ImportanceFromMarksReported | hid_importance.py:92-96 | The loop marks an item False exactly when it already was, or when a later update reports it |
| Importance.ImportanceOf | hid_importance.py:88-98 | For any step with the contract, checked against the replay's reports: one flag per item; False exactly when an update reports it; False only for attribute items; fails exactly at the first Reserved item |
| Importance.ListItemImportance | hid_importance.py:88-98 | `list_item_importance` on blocks: a list as long as `items`. An item is False exactly when the update of it or of a later item reports it. Main, Push and Pop items stay True. Fails only at the first Reserved item |
| Importance.ReportedAttributes | hid_importance.py:94-96 | Every index an update reports is an attribute item at or before that update |
| Importance.PoppedOverwriteStep0 | hid_importance.py:79-82 | The first Logical Minimum 0 goes into a fresh base table, unused, under item index 0 |
| Importance.PoppedOverwriteStep1 | hid_importance.py:74-76 | The Push then stacks a copy of that table |
| Importance.PoppedOverwriteStep2 | hid_importance.py:45-46 | Logical Minimum 1 meets the copied entry, which is unused and holds another value, so it reports item 0 and leaves the copy as it was |
| Importance.PoppedOverwriteStep3 | hid_importance.py:77-78 | The Pop discards the copy, and the base table with item 0's entry is live again |
| Importance.PoppedOverwriteReplay | hid_importance.py:92-96 | In the replay, item 2 sees two copies of item 0's table and the Input item sees the base table alone |
| Importance.ReportedItemFlagged | hid_importance.py:92-96 | With no Reserved item, every item some update reports ends up flagged False |
| Importance.PoppedOverwriteReported | hid_importance.py:45-46 | In the counterexample the update of item 2 reports item 0 |
| Importance.RemovedItemStillInEffect | hid_importance.py:3-13 | Contrary to the header comment's "may be safely removed": item 0 is flagged False, yet its value is the one the Input item sees |
| Importance.DroppingFlaggedItemChangesInput | hid_importance.py:3-13 | Removing that flagged item changes the table the Input item sees from item 0's Logical Minimum to an empty table |
| Snapshots.MainPositionsFrom | hid_state.py:83-87 | The listed positions lie in the range that was scanned |
| Snapshots.MainPositionsFromSpec | hid_state.py:83-87 | The listed positions are exactly the Main items, each once, in increasing order |
| Snapshots.SnapshotsFrom | hid_state.py:83-88 | The loop of `get_state_tables`, a snapshot before each Main item's update; its meaning is stated by `Snapshots.SnapshotsFromFails` (fails exactly at the first failing item) and `Snapshots.SnapshotsFromContents` (one snapshot per Main item, each the replay's live table) |
| Snapshots.SnapshotsFromFails | hid_state.py:83-88 | The loop fails exactly when some item still to come fails (a Main item on an empty stack, or a failing update), with the first such item's error |
| Snapshots.SnapshotsFromContents | hid_state.py:83-88 | The loop gives one snapshot per Main item still to come, in order. Each holds the item's index, its block, and the replay's live table just before it |
| Snapshots.ReplayKeepsLocalsUsed | hid_state.py:25-40 | Every Local entry on the replayed stack is used |
| Snapshots.SnapshotLocalsUsed | hid_state.py:85-87 | Every Local entry in a snapshot's table is used |
| Snapshots.SnapshotsOf | hid_state.py:79-90 | For any step with the contract: the snapshot error and contents characterisations from position 0 |
| Snapshots.GetStateTables | hid_state.py:79-90 | `get_state_tables`. Fails exactly when some item fails, with the first one's error. Otherwise one snapshot per Main item in order: index, raw block, and the live table before the item (Local keys included) |
| Snapshots.SnapshotsOfPrefix | hid_state.py:86 | Snapshots are copies: when the loop succeeds on a descriptor, it succeeds on any prefix with a prefix of the snapshots |
| Snapshots.GetStateTablesPrefix | hid_state.py:79-90 | Later items never change a snapshot already taken: a prefix of a descriptor gives a prefix of its snapshots |
| Snapshots.GetStateTablesLocalsUsed | hid_state.py:25-40 | Every Local entry in every snapshot is used |
| Snapshots.MainItemFirstFails | hid_state.py:86 | A descriptor whose first item is a Main item fails with the IndexError of `stack[-1]` at index 0 |
| Snapshots.ReplayFailureIsDriverFailure | hid_state.py:81-88 | When the replay of the first n items fails, the loop of `get_state_tables` raises at one of those items |
| Snapshots.NoPushKeepsBase | hid_state.py:55-76 | Until the first Push item the stack holds at most the base table |
| Snapshots.MainItemAfterBasePopFails | hid_state.py:81-88 | Whenever the replayed stack holds at most the base table, a Pop followed by a Main item makes `get_state_tables` fail: the Pop empties the stack and `stack[-1]` then raises |
| Snapshots.MainItemAfterUnpushedPopFails | hid_state.py:81-88 | In particular a Pop with no Push anywhere before it, followed by a Main item, makes `get_state_tables` fail |
| Compare.NormalizeStateTable | hid_compare.py:16-21 | Same key set, each key mapped to its value only |
| Compare.NormalizedEqualIff | hid_compare.py:16-21 | Two tables normalise alike exactly when they have the same keys with the same values, whatever their used flags and indices |
| Compare.CompareStateTables | hid_compare.py:24-37 | A pair passes exactly when bytes and values agree. A bytes mismatch is reported as such even when the tables also differ; otherwise a table mismatch is reported |
| Compare.BookkeepingIgnored | hid_compare.py:34-37 | Snapshots that differ only in an entry's used flag and index compare equal |
| Compare.CompareSnapshots | hid_compare.py:43-44 | The `zip` loop of `compare`; its meaning is stated by `Compare.CompareSnapshotsOk` (passes exactly when every pair up to the shorter length agrees) and `Compare.CompareSnapshotsFirstMismatch` (fails with the first differing pair's error) |
| Compare.CompareSnapshotsOk | hid_compare.py:43-44 | The zip loop passes exactly when every pair up to the shorter length compares equal |
| Compare.CompareSnapshotsFirstMismatch | hid_compare.py:43-44 | When the zip loop fails, it is with the error of the first pair that differs |
| Compare.Compare | hid_compare.py:40-44 | A failure of the first descriptor is reported before the second. With both built, passes exactly when the pairs up to the shorter length agree, otherwise fails at the first differing pair |
| Compare.CompareReflexive | hid_compare.py:40-44 | A descriptor whose state tables can be built is equivalent to itself |
| Compare.CompareSymmetric | hid_compare.py:40-44 | Equivalence does not depend on the order of the two descriptors |
| Compare.ExtraMainItemsIgnored | hid_compare.py:43 | A descriptor is reported equivalent to any extension of itself whose state tables can be built, however many Main items the extension adds |

## Left out

- File opening and stream reads (`open`, `stream.read`): the descriptor is an in-memory byte sequence, and `_read_with_eof` is the length test on it.
- The `__main__` command-line blocks and all printing, including the `print` calls in `compare_state_tables`.
- Exception classes and messages: each raise is an `Err` case carrying the indices or type the message would show, not its text.
- `copy.deepcopy`: Dafny maps and sequences are values, so copies and the "input not altered" guarantee of `_normalize_state_table` come for free.
- Dictionary iteration order: no property depends on it.
- `parse_item_bytes` on an empty buffer raises IndexError at `buf[0]`, and on a long header without its two length and tag bytes raises ValueError when unpacking `buf[1:3]`. These inputs are excluded by `Parseable`; `HidRead.ItemBlockParseable` shows that no block from the reader is one of them.
- `list_item_importance` and `get_state_tables` take the reader's blocks, and `compare` passes the blocks on to `get_state_tables`. Their Dafny counterparts, `Importance.ListItemImportance`, `Snapshots.GetStateTables` and `Compare.Compare`, require `AllParseable` for the same reason.
- A write `result[ret] = False` with `ret` out of range would raise IndexError. `Importance.ReplayIndicesWithin` shows it cannot happen, so the error is not modelled.
- The duplicate state-machine code in hid_state.py:25-76 is not modelled separately. It is the same code as hid_importance.py:34-85, and `StateTable` models it once.
- Snapshots.MainPositionsFrom: its own contract states only the range of the positions. Its full meaning is in `Snapshots.MainPositionsFromSpec`.

=== FILE: hid_compare.dfy ===
/** hid_compare.py: two descriptors are equivalent when their Main items,
    paired in order, have the same raw bytes and see the same attribute
    values. The exceptions the source raises become the `Err` cases of a
    result. */
module Compare {
  import opened Results
  import opened HidRead
  import opened StateTable
  import opened Snapshots

  /** A table with only the value of each entry: what is compared. */
  type ValueTable = map<Key, seq<byte>>

  /** The exception `compare` raises: a pair of Main items with different
      bytes, a pair whose tables differ, or a failure of `get_state_tables`
      on either side. */
  datatype CompareError =
    | ItemsDiffer(indexA: nat, indexB: nat)
    | StatesDiffer(indexA: nat, indexB: nat)
    | StateFailure(error: StateError)

  /** `_normalize_state_table`: the same keys, each mapped to its value
      only. The input is a value and is not altered. */
  function NormalizeStateTable(t: Table): (n: ValueTable)
    ensures n.Keys == t.Keys
    ensures forall k :: k in n ==> n[k] == t[k].value
  {
    map k | k in t :: t[k].value
  }

  /** Two tables normalise alike exactly when they have the same keys with
      the same values, whatever their `used` flags and indices. */
  lemma NormalizedEqualIff(a: Table, b: Table)
    ensures NormalizeStateTable(a) == NormalizeStateTable(b) <==>
      a.Keys == b.Keys && forall k :: k in a ==> a[k].value == b[k].value
  {
    if a.Keys == b.Keys && forall k :: k in a ==> a[k].value == b[k].value {
      assert NormalizeStateTable(a).Keys == NormalizeStateTable(b).Keys;
    }
  }

  /** The pair of snapshots compares equal: the same Main item bytes and
      the same attribute values. */
  predicate SameState(a: Snapshot, b: Snapshot)
  {
    a.item == b.item && a.table.Keys == b.table.Keys && forall k :: k in a.table ==> a.table[k].value == b.table[k].value
  }

  /** `compare_state_tables`: the item bytes are checked first, so a pair
      whose bytes differ is reported as such even when its tables differ as
      well; otherwise the normalised tables are compared. */
  function CompareStateTables(a: Snapshot, b: Snapshot): (r: Result<(), CompareError>)
    ensures r.Ok? <==> SameState(a, b)
    ensures a.item != b.item ==> r == Err(ItemsDiffer(a.index, b.index))
    ensures a.item == b.item && !SameState(a, b) ==> r == Err(StatesDiffer(a.index, b.index))
  {
    NormalizedEqualIff(a.table, b.table);
    if a.item != b.item then Err(ItemsDiffer(a.index, b.index))
    else if NormalizeStateTable(a.table) != NormalizeStateTable(b.table) then Err(StatesDiffer(a.index, b.index))
    else Ok(())
  }

  /** Snapshots whose tables differ only in `used` flags and indices compare
      equal. */
  lemma BookkeepingIgnored(a: Snapshot, k: Key, used: bool, index: nat)
    requires k in a.table
    ensures CompareStateTables(a, a.(table := a.table[k := a.table[k].(used := used, index := index)])).Ok?
  {
  }

  function Min(a: nat, b: nat): (m: nat)
  {
    if a <= b then a else b
  }

  /** The loop of `compare` over `zip(statesA, statesB)`: the pairs up to the
      shorter list only, stopping at the first pair that differs. */
  function CompareSnapshots(sa: seq<Snapshot>, sb: seq<Snapshot>): (r: Result<(), CompareError>)
    decreases |sa|
  {
    if |sa| == 0 || |sb| == 0 then Ok(())
    else
      match CompareStateTables(sa[0], sb[0])
      case Err(e) => Err(e)
      case Ok(_) => CompareSnapshots(sa[1..], sb[1..])
  }

  /** The loop succeeds exactly when every pair up to the shorter length
      compares equal; snapshots past the shorter length are never looked
      at. */
  lemma {:induction false} CompareSnapshotsOk(sa: seq<Snapshot>, sb: seq<Snapshot>)
    ensures CompareSnapshots(sa, sb).Ok? <==> forall k :: 0 <= k < Min(|sa|, |sb|) ==> SameState(sa[k], sb[k])
    decreases |sa|
  {
    if |sa| > 0 && |sb| > 0 && SameState(sa[0], sb[0]) {
      CompareSnapshotsOk(sa[1..], sb[1..]);
      assert forall k :: 1 <= k < Min(|sa|, |sb|) ==> sa[1..][k - 1] == sa[k] && sb[1..][k - 1] == sb[k];
    }
  }

  /** When the loop fails, it is with the error of the first pair that
      differs. */
  lemma {:induction false} CompareSnapshotsFirstMismatch(sa: seq<Snapshot>, sb: seq<Snapshot>)
    ensures var r := CompareSnapshots(sa, sb);
      r.Err? ==> exists k ::
        (&& 0 <= k < Min(|sa|, |sb|) && r == CompareStateTables(sa[k], sb[k])
         && forall m :: 0 <= m < k ==> SameState(sa[m], sb[m]))
    decreases |sa|
  {
    if |sa| > 0 && |sb| > 0 && SameState(sa[0], sb[0]) {
      CompareSnapshotsFirstMismatch(sa[1..], sb[1..]);
      var r := CompareSnapshots(sa[1..], sb[1..]);
      if r.Err? {
        var k :| && 0 <= k < Min(|sa| - 1, |sb| - 1) && r == CompareStateTables(sa[1..][k], sb[1..][k])
                 && forall m :: 0 <= m < k ==> SameState(sa[1..][m], sb[1..][m]);
        forall m | 0 <= m < k + 1 ensures SameState(sa[m], sb[m]) {
          if m > 0 {
            assert SameState(sa[1..][m - 1], sb[1..][m - 1]);
          }
        }
        assert r == CompareStateTables(sa[k + 1], sb[k + 1]);
      }
    }
  }

  /** `compare`: the state tables of both descriptors, then their pairs in
      order up to the shorter list, stopping at the first pair that differs.
      A failure of `get_state_tables` on the first descriptor is reported
      before the second is looked at. */
  function Compare(itemsA: seq<seq<byte>>, itemsB: seq<seq<byte>>): (r: Result<(), CompareError>)
    requires AllParseable(itemsA) && AllParseable(itemsB)
    ensures GetStateTables(itemsA).Err? ==> r == Err(StateFailure(GetStateTables(itemsA).error))
    ensures GetStateTables(itemsA).Ok? && GetStateTables(itemsB).Err? ==> r == Err(StateFailure(GetStateTables(itemsB).error))
    ensures r.Ok? <==>
      && GetStateTables(itemsA).Ok? && GetStateTables(itemsB).Ok?
      && var sa := GetStateTables(itemsA).value;
         var sb := GetStateTables(itemsB).value;
         forall k :: 0 <= k < Min(|sa|, |sb|) ==> SameState(sa[k], sb[k])
    ensures r.Err? && GetStateTables(itemsA).Ok? && GetStateTables(itemsB).Ok? ==>
      var sa := GetStateTables(itemsA).value;
      var sb := GetStateTables(itemsB).value;
      exists k ::
        (&& 0 <= k < Min(|sa|, |sb|) && r == CompareStateTables(sa[k], sb[k])
         && forall m :: 0 <= m < k ==> SameState(sa[m], sb[m]))
  {
    match GetStateTables(itemsA)
    case Err(e) => Err(StateFailure(e))
    case Ok(sa) =>
      match GetStateTables(itemsB)
      case Err(e) => Err(StateFailure(e))
      case Ok(sb) =>
        CompareSnapshotsOk(sa, sb);
        CompareSnapshotsFirstMismatch(sa, sb);
        CompareSnapshots(sa, sb)
  }

  /** A descriptor is equivalent to itself whenever its state tables can be
      built. */
  lemma CompareReflexive(items: seq<seq<byte>>)
    requires AllParseable(items) && GetStateTables(items).Ok?
    ensures Compare(items, items).Ok?
  {
  }

  /** Equivalence does not depend on the order of the two descriptors. */
  lemma CompareSymmetric(itemsA: seq<seq<byte>>, itemsB: seq<seq<byte>>)
    requires AllParseable(itemsA) && AllParseable(itemsB)
    ensures Compare(itemsA, itemsB).Ok? <==> Compare(itemsB, itemsA).Ok?
  {
  }

  /** Because of `zip`, a descriptor is reported equivalent to any extension
      of itself whose state tables can be built, however many Main items the
      extension adds. */
  lemma ExtraMainItemsIgnored(items: seq<seq<byte>>, more: seq<seq<byte>>)
    requires AllParseable(items + more) && GetStateTables(items + more).Ok?
    ensures AllParseable(items)
    ensures Compare(items, items + more).Ok?
  {
    assert (items + more)[..|items|] == items;
    GetStateTablesPrefix(items + more, |items|);
  }
}

=== FILE: hid_importance.dfy ===
/** `list_item_importance` of hid_importance.py: replays a descriptor's items
    through the state machine and marks every item the record-or-suppress
    rule reports as removable. The loop is written over any step with the
    contract of `update_state_table`, and used with `UpdateStateTable`. */
module Importance {
  import opened Results
  import opened HidRead
  import opened StateTable

  /** The positions, among the first n items, of attribute items: those
      that go through the record-or-suppress rule. */
  function AttributeIndices(items: seq<Item>, n: nat): (js: set<nat>)
    requires n <= |items|
  {
    set j: nat | j < n && IsAttributeItem(items[j])
  }

  /** The index that the update of item m reports as removable, replaying
      the descriptor from the start; None when it reports nothing or the
      replay fails. This is the reference the flags are checked against. */
  function Reported(step: StepFn, items: seq<Item>, m: nat): (j: Option<nat>)
    requires m < |items|
  {
    match Replay(step, items, m)
    case Err(_) => None
    case Ok(s) =>
      match step(s, items[m], m)
      case Err(_) => None
      case Ok(u) => u.removable
  }

  /** The loop of `list_item_importance` from item i on, with the flags so
      far. Every index the state machine reports is an attribute item
      already seen, so each write to the flags is in range. */
  function ImportanceFrom(step: StepFn, items: seq<Item>, i: nat, stack: Stack, flags: seq<bool>)
    : (r: Result<seq<bool>, StateError>)
    requires KeepsIndicesWithin(step)
    requires i <= |items| && |flags| == |items|
    requires IndicesWithin(stack, AttributeIndices(items, i))
    ensures r.Ok? ==> |r.value| == |items|
    decreases |items| - i
  {
    if i == |items| then Ok(flags)
    else
      var item := items[i];
      assert KeepsIndicesWithinAt(step, stack, item, i, AttributeIndices(items, i + 1));
      match step(stack, item, i)
      case Err(e) => Err(e)
      case Ok(u) =>
        var flags' := if u.removable.Some? then flags[u.removable.value := false] else flags;
        ImportanceFrom(step, items, i + 1, u.stack, flags')
  }

  /** The loop fails exactly when a Reserved item is still to come, with the
      NotImplementedError of the first one. */
  lemma {:induction false} ImportanceFromFailsAtFirstReserved(
    step: StepFn, items: seq<Item>, i: nat, stack: Stack, flags: seq<bool>)
    requires FailsOnReservedOnly(step) && KeepsIndicesWithin(step)
    requires i <= |items| && |flags| == |items|
    requires IndicesWithin(stack, AttributeIndices(items, i))
    ensures ImportanceFrom(step, items, i, stack, flags).Err? <==> HasReservedFrom(items, i)
    ensures ImportanceFrom(step, items, i, stack, flags).Err? ==> exists j: nat ::
      (FirstReservedFrom(items, i, j)
       && ImportanceFrom(step, items, i, stack, flags).error == UnknownItemType(items[j].itemType, j))
    decreases |items| - i
  {
    if i < |items| {
      var item := items[i];
      assert KeepsIndicesWithinAt(step, stack, item, i, AttributeIndices(items, i + 1));
      match step(stack, item, i)
      case Err(e) =>
        assert FirstReservedFrom(items, i, i);
      case Ok(u) =>
        var flags' := if u.removable.Some? then flags[u.removable.value := false] else flags;
        ImportanceFromFailsAtFirstReserved(step, items, i + 1, u.stack, flags');
        var r := ImportanceFrom(step, items, i + 1, u.stack, flags');
        assert ImportanceFrom(step, items, i, stack, flags) == r;
        if r.Err? {
          var j: nat :| FirstReservedFrom(items, i + 1, j) && r.error == UnknownItemType(items[j].itemType, j);
          assert FirstReservedFrom(items, i, j);
        }
        assert HasReservedFrom(items, i) ==> HasReservedFrom(items, i + 1);
    }
  }

  /** The replay up to item n only records, and the update of item m only
      reports, indices of attribute items already seen. */
  lemma {:induction false} ReplayIndicesWithin(step: StepFn, items: seq<Item>, n: nat)
    requires KeepsIndicesWithin(step)
    requires n <= |items|
    ensures Replay(step, items, n).Ok? ==> IndicesWithin(Replay(step, items, n).value, AttributeIndices(items, n))
    ensures n < |items| && Reported(step, items, n).Some? ==> Reported(step, items, n).value in AttributeIndices(items, n + 1)
    decreases n
  {
    if n > 0 {
      ReplayIndicesWithin(step, items, n - 1);
      ReplayStep(step, items, n - 1);
      var r := Replay(step, items, n - 1);
      if r.Ok? {
        assert KeepsIndicesWithinAt(step, r.value, items[n - 1], n - 1, AttributeIndices(items, n));
      }
    }
    if n < |items| && Replay(step, items, n).Ok? {
      assert KeepsIndicesWithinAt(step, Replay(step, items, n).value, items[n], n, AttributeIndices(items, n + 1));
    }
  }

  /** The loop, started on the replayed stack, marks an item False exactly
      when it was False already or a later update reports it. */
  lemma {:induction false} ImportanceFromMarksReported(
    step: StepFn, items: seq<Item>, i: nat, stack: Stack, flags: seq<bool>)
    requires KeepsIndicesWithin(step)
    requires i <= |items| && |flags| == |items|
    requires IndicesWithin(stack, AttributeIndices(items, i))
    requires Replay(step, items, i) == Ok(stack)
    ensures var r := ImportanceFrom(step, items, i, stack, flags);
      r.Ok? ==> forall j :: 0 <= j < |items| ==>
        (!r.value[j] <==> !flags[j] || exists m :: i <= m < |items| && Reported(step, items, m) == Some(j))
    decreases |items| - i
  {
    if i < |items| {
      var item := items[i];
      assert KeepsIndicesWithinAt(step, stack, item, i, AttributeIndices(items, i + 1));
      match step(stack, item, i)
      case Err(e) =>
      case Ok(u) =>
        var flags' := if u.removable.Some? then flags[u.removable.value := false] else flags;
        ReplayStep(step, items, i);
        assert Reported(step, items, i) == u.removable;
        ImportanceFromMarksReported(step, items, i + 1, u.stack, flags');
        var r := ImportanceFrom(step, items, i + 1, u.stack, flags');
        assert ImportanceFrom(step, items, i, stack, flags) == r;
        if r.Ok? {
          forall j | 0 <= j < |items|
            ensures !r.value[j] <==> !flags[j] || exists m :: i <= m < |items| && Reported(step, items, m) == Some(j)
          {
            assert !flags'[j] <==> !flags[j] || Reported(step, items, i) == Some(j);
            if exists m :: i <= m < |items| && Reported(step, items, m) == Some(j) {
              var m :| i <= m < |items| && Reported(step, items, m) == Some(j);
              assert m == i || (i + 1 <= m < |items| && Reported(step, items, m) == Some(j));
            }
          }
        }
    }
  }

  /** The whole loop over a decoded descriptor, for any step with the
      contract of `update_state_table`: one flag per item; an item is marked
      False exactly when the update of it or of a later item reports it
      removable, and only an attribute item can be; the only failure is the
      error of the first Reserved item. */
  function ImportanceOf(step: StepFn, items: seq<Item>): (r: Result<seq<bool>, StateError>)
    requires StateMachineContract(step)
    ensures r.Err? <==> HasReservedFrom(items, 0)
    ensures r.Err? ==> exists j: nat :: (FirstReservedFrom(items, 0, j) && r.error == UnknownItemType(items[j].itemType, j))
    ensures r.Ok? ==> |r.value| == |items|
    ensures r.Ok? ==> forall j :: 0 <= j < |items| ==>
      (!r.value[j] <==> exists m :: j <= m < |items| && Reported(step, items, m) == Some(j))
    ensures r.Ok? ==> forall j :: 0 <= j < |items| && !r.value[j] ==> IsAttributeItem(items[j])
  {
    var flags := seq(|items|, _ => true);
    assert Replay(step, items, 0) == Ok([]);
    ImportanceFromFailsAtFirstReserved(step, items, 0, [], flags);
    ImportanceFromMarksReported(step, items, 0, [], flags);
    ReportedAttributes(step, items);
    ImportanceFrom(step, items, 0, [], flags)
  }

  /** `list_item_importance`: one flag per item block, False for an item
      the state machine reports removable. An item is marked False exactly when the update of
      it or of a later item reports it removable, and only an attribute item
      can be, so Main, Push and Pop items always stay True; the only failure
      is the NotImplementedError of the first Reserved item. */
  function ListItemImportance(items: seq<seq<byte>>): (r: Result<seq<bool>, StateError>)
    requires AllParseable(items)
    ensures var decoded := ParseAll(items);
      && (r.Err? <==> HasReservedFrom(decoded, 0))
      && (r.Err? ==> exists j: nat :: (FirstReservedFrom(decoded, 0, j) && r.error == UnknownItemType(decoded[j].itemType, j)))
      && (r.Ok? ==> |r.value| == |items|)
      && (r.Ok? ==> forall j :: 0 <= j < |items| ==>
            (!r.value[j] <==> exists m :: j <= m < |items| && Reported(UpdateStateTable, decoded, m) == Some(j)))
      && (r.Ok? ==> forall j :: 0 <= j < |items| && !r.value[j] ==> IsAttributeItem(decoded[j]))
  {
    UpdateStateTableContract();
    ImportanceOf(UpdateStateTable, ParseAll(items))
  }

  /** Every index the update of item m reports is an attribute item at or
      before m. */
  lemma ReportedAttributes(step: StepFn, items: seq<Item>)
    requires KeepsIndicesWithin(step)
    ensures forall m, j :: 0 <= m < |items| && Reported(step, items, m) == Some(j) ==>
      j <= m && IsAttributeItem(items[j])
  {
    forall m, j | 0 <= m < |items| && Reported(step, items, m) == Some(j)
      ensures j <= m && IsAttributeItem(items[j])
    {
      ReplayIndicesWithin(step, items, m);
    }
  }

  /** Logical Minimum 0, Push, Logical Minimum 1, Pop, Input: the items of
      the counterexample below. */
  function PoppedOverwriteItems(): (items: seq<Item>)
    ensures |items| == 5 && IsAttributeItem(items[0]) && IsPop(items[3]) && IsMain(items[4])
  {
    [Item(GLOBAL, 1, [0x00]), Item(GLOBAL, PUSH, []), Item(GLOBAL, 1, [0x01]), Item(GLOBAL, POP, []), Item(MAIN, 8, [0x02])]
  }

  /** The table Logical Minimum 0 leaves: its value, unused, from item 0. */
  function MinimumZeroTable(): (t: Table)
    ensures Key(GLOBAL, 1) in t && t[Key(GLOBAL, 1)] == Entry([0x00], false, 0)
  {
    map[Key(GLOBAL, 1) := Entry([0x00], false, 0)]
  }

  /** Item 0 records Logical Minimum 0 in a fresh base table. */
  lemma PoppedOverwriteStep0()
    ensures UpdateStateTable([], PoppedOverwriteItems()[0], 0) == Ok(Updated([MinimumZeroTable()], None))
  {
    var item := PoppedOverwriteItems()[0];
    assert AddState(map[], item, 0).table == MinimumZeroTable();
  }

  /** Item 1 pushes a copy of it. */
  lemma PoppedOverwriteStep1()
    ensures var t := MinimumZeroTable();
      UpdateStateTable([t], PoppedOverwriteItems()[1], 1) == Ok(Updated([t, t], None))
  {
    var t := MinimumZeroTable();
    assert [t] + [t] == [t, t];
  }

  /** Item 2 meets the copied entry unused with another value: it reports
      item 0 and leaves the copy as it was. */
  lemma PoppedOverwriteStep2()
    ensures var t := MinimumZeroTable();
      UpdateStateTable([t, t], PoppedOverwriteItems()[2], 2) == Ok(Updated([t, t], Some(0)))
  {
    var t := MinimumZeroTable();
    assert AddState(t, PoppedOverwriteItems()[2], 2) == Added(t, Some(0));
    assert [t, t][..1] + [t] == [t, t];
  }

  /** Item 3 pops the copy: the base table, item 0's entry in it, is live
      again. */
  lemma PoppedOverwriteStep3()
    ensures var t := MinimumZeroTable();
      UpdateStateTable([t, t], PoppedOverwriteItems()[3], 3) == Ok(Updated([t], None))
  {
    var t := MinimumZeroTable();
    assert [t, t][..1] == [t];
  }

  /** The replay of the counterexample: two copies of item 0's table
      before item 2, the base table alone before the Input item. */
  lemma {:induction false} PoppedOverwriteReplay()
    ensures var t := MinimumZeroTable();
      && Replay(UpdateStateTable, PoppedOverwriteItems(), 2) == Ok([t, t])
      && Replay(UpdateStateTable, PoppedOverwriteItems(), 4) == Ok([t])
  {
    var items := PoppedOverwriteItems();
    assert Replay(UpdateStateTable, items, 0) == Ok([]);
    ReplayStep(UpdateStateTable, items, 0);
    PoppedOverwriteStep0();
    ReplayStep(UpdateStateTable, items, 1);
    PoppedOverwriteStep1();
    PoppedOverwriteStep2();
    ReplayStep(UpdateStateTable, items, 2);
    ReplayStep(UpdateStateTable, items, 3);
    PoppedOverwriteStep3();
  }

  /** An item some update reports is flagged False, whenever the
      descriptor holds no Reserved item. */
  lemma ReportedItemFlagged(step: StepFn, items: seq<Item>, m: nat, j: nat)
    requires StateMachineContract(step) && !HasReservedFrom(items, 0)
    requires m < |items| && Reported(step, items, m) == Some(j)
    ensures ImportanceOf(step, items).Ok? && j < |items| && !ImportanceOf(step, items).value[j]
  {
    ReportedAttributes(step, items);
  }

  /** In the counterexample, the update of item 2 reports item 0. */
  lemma PoppedOverwriteReported()
    ensures Reported(UpdateStateTable, PoppedOverwriteItems(), 2) == Some(0)
  {
    PoppedOverwriteReplay();
    PoppedOverwriteStep2();
  }

  /** The counterexample holds no Reserved item. */
  lemma PoppedOverwriteNoReserved()
    ensures !HasReservedFrom(PoppedOverwriteItems(), 0)
  {
  }

  /** The flags `list_item_importance` computes are not a safe-removal
      guarantee. In Logical Minimum 0, Push, Logical Minimum 1, Pop, Input,
      the update of item 2 reports item 0, so item 0 is flagged False; yet
      the Pop discards the pushed copy, and the Input item sees item 0's
      value. */
  lemma RemovedItemStillInEffect()
    ensures Replay(UpdateStateTable, PoppedOverwriteItems(), 4) == Ok([MinimumZeroTable()])
    ensures StateMachineContract(UpdateStateTable)
    ensures ImportanceOf(UpdateStateTable, PoppedOverwriteItems()).Ok?
    ensures !ImportanceOf(UpdateStateTable, PoppedOverwriteItems()).value[0]
  {
    PoppedOverwriteReplay();
    PoppedOverwriteReported();
    PoppedOverwriteNoReserved();
    UpdateStateTableContract();
    ReportedItemFlagged(UpdateStateTable, PoppedOverwriteItems(), 2, 0);
  }

  /** Dropping the item flagged False from the counterexample changes what
      the Input item sees: Push, Logical Minimum 1, Pop leaves an empty base
      table, where the whole descriptor leaves item 0's Logical Minimum. */
  lemma {:induction false} DroppingFlaggedItemChangesInput()
    ensures |PoppedOverwriteItems()[1..]| == 4 && IsMain(PoppedOverwriteItems()[1..][3])
    ensures Replay(UpdateStateTable, PoppedOverwriteItems()[1..], 3) == Ok([map[]])
    ensures Replay(UpdateStateTable, PoppedOverwriteItems(), 4) != Ok([map[]])
  {
    var items := PoppedOverwriteItems()[1..];
    var e: Table := map[];
    var t1 := map[Key(GLOBAL, 1) := Entry([0x01], false, 1)];
    assert Replay(UpdateStateTable, items, 0) == Ok([]);
    ReplayStep(UpdateStateTable, items, 0);
    assert [e] + [e] == [e, e];
    assert UpdateStateTable([], items[0], 0) == Ok(Updated([e, e], None));
    ReplayStep(UpdateStateTable, items, 1);
    assert AddState(e, items[1], 1).table == t1;
    assert [e, e][..1] + [t1] == [e, t1];
    assert UpdateStateTable([e, e], items[1], 1) == Ok(Updated([e, t1], None));
    ReplayStep(UpdateStateTable, items, 2);
    assert [e, t1][..1] == [e];
    assert UpdateStateTable([e, t1], items[2], 2) == Ok(Updated([e], None));
    PoppedOverwriteReplay();
    assert MinimumZeroTable() != e by {
      assert Key(GLOBAL, 1) in MinimumZeroTable();
    }
  }
}

=== FILE: hid_read.dfy ===
/** The item decoder of hid_read.py: splitting a HID report descriptor
    (HID 1.11, section 6.2.2.2 "Short Items" and 6.2.2.3 "Long Items") into
    item blocks, and decoding one block into type, tag and data. The byte
    stream is an in-memory sequence. */
module HidRead {
  import opened Results

  /** One byte of the descriptor, as a Python `bytes` element. */
  newtype byte = x: int | 0 <= x < 0x100

  /** The three fields of an item header byte: `tag[7:4] type[3:2] size[1:0]`. */
  datatype Meta = Meta(size: nat, itemType: nat, tag: nat)

  predicate ValidMeta(m: Meta)
  {
    m.size < 4 && m.itemType < 4 && m.tag < 16
  }

  /** `_parse_meta`. The masks and shifts of the source are, on a value in
      0..255, the remainders and quotients below. */
  function ParseMeta(b: byte): (m: Meta)
    ensures ValidMeta(m)
    ensures 16 * m.tag + 4 * m.itemType + m.size == b as int
  {
    Meta((b % 4) as nat, (b / 4 % 4) as nat, (b / 16 % 16) as nat)
  }

  /** The header byte that carries the given fields. */
  function MetaByte(m: Meta): (b: byte)
    requires ValidMeta(m)
  {
    (16 * m.tag + 4 * m.itemType + m.size) as byte
  }

  /** Two headers agree on their fields only if they are the same byte, and
      every field combination is the header of exactly one byte. */
  lemma MetaRoundTrip(b: byte, m: Meta)
    requires ValidMeta(m)
    ensures MetaByte(ParseMeta(b)) == b
    ensures ParseMeta(MetaByte(m)) == m
  {
    var x := MetaByte(m) as int;
    assert x == 4 * (4 * m.tag + m.itemType) + m.size;
    assert x % 4 == m.size && x / 4 == 4 * m.tag + m.itemType;
    assert x / 4 % 4 == m.itemType && x / 16 == m.tag;
    assert x / 16 % 16 == m.tag;
  }

  /** `_is_long_item`: size 2, type 3 (reserved), tag 15. */
  predicate IsLongItem(b: byte)
  {
    var m := ParseMeta(b);
    m.size == 2 && m.itemType == 3 && m.tag == 0x0F
  }

  /** The long-item header is exactly the byte 0xFE. */
  lemma LongItemHeader(b: byte)
    ensures IsLongItem(b) <==> b == 0xFE
  {
    if IsLongItem(b) {
      var m := ParseMeta(b);
      assert 16 * m.tag + 4 * m.itemType + m.size == 0xFE;
    }
  }

  /** Payload length of a short item: the size code 3 stands for 4 bytes. */
  function PayloadLength(size: nat): (n: nat)
    requires size < 4
    ensures n <= 4 && (n == 4 <==> size == 3)
    ensures size != 3 ==> n == size
  {
    if size == 3 then 4 else size
  }

  /** A complete item block: a short item is its header and its payload; a
      long item is the header 0xFE, dataSize, longTag and dataSize bytes. */
  predicate IsItemBlock(b: seq<byte>)
  {
    && |b| >= 1
    && if IsLongItem(b[0]) then |b| >= 3 && |b| == 3 + b[1] as int
       else |b| == 1 + PayloadLength(ParseMeta(b[0]).size)
  }

  /** A descriptor starts with at most one complete item block. */
  lemma ItemBlockPrefixUnique(s: seq<byte>, k1: nat, k2: nat)
    requires k1 <= |s| && k2 <= |s|
    requires IsItemBlock(s[..k1]) && IsItemBlock(s[..k2])
    ensures k1 == k2
  {
    assert s[..k1][0] == s[0] == s[..k2][0];
    if IsLongItem(s[0]) {
      assert s[..k1][1] == s[1] == s[..k2][1];
    }
  }

  /** The outcome of `_read_next_item_bytes` on the rest of the input: the
      EOFError of a clean end, the IndexError of a cut-short item, or the
      next block and what follows it. */
  datatype NextItem = EndOfInput | Truncated | Block(block: seq<byte>, rest: seq<byte>)

  /** `_read_next_item_bytes` over an in-memory sequence. */
  function NextItemBytes(s: seq<byte>): (r: NextItem)
    ensures r.EndOfInput? <==> |s| == 0
    ensures r.Block? ==> IsItemBlock(r.block) && s == r.block + r.rest
    ensures r.Truncated? <==> |s| > 0 && forall k :: 0 <= k <= |s| ==> !IsItemBlock(s[..k])
  {
    if |s| == 0 then EndOfInput
    else
      var n := 1 + PayloadLength(ParseMeta(s[0]).size);
      if |s| < n then
        assert forall k :: 0 <= k <= |s| ==> !IsItemBlock(s[..k]) by {
          forall k | 0 <= k <= |s| ensures !IsItemBlock(s[..k]) {
            if k > 0 {
              assert s[..k][0] == s[0];
            }
          }
        }
        Truncated
      else if IsLongItem(s[0]) then
        var m := n + s[1] as nat;
        if |s| < m then
          assert forall k :: 0 <= k <= |s| ==> !IsItemBlock(s[..k]) by {
            forall k | 0 <= k <= |s| ensures !IsItemBlock(s[..k]) {
              if k >= 3 {
                assert s[..k][0] == s[0] && s[..k][1] == s[1];
              }
            }
          }
          Truncated
        else
          Block(s[..m], s[m..])
      else
        Block(s[..n], s[n..])
  }

  /** A descriptor that starts with a complete item block yields that block. */
  lemma NextItemBytesOfBlock(b: seq<byte>, rest: seq<byte>)
    requires IsItemBlock(b)
    ensures NextItemBytes(b + rest) == Block(b, rest)
  {
    var s := b + rest;
    assert s[..|b|] == b;
    var r := NextItemBytes(s);
    assert r.Block?;
    assert s[..|r.block|] == r.block;
    ItemBlockPrefixUnique(s, |b|, |r.block|);
    assert r.rest == s[|b|..] == rest;
  }

  /** The blocks laid end to end. */
  function Concat(bs: seq<seq<byte>>): (s: seq<byte>)
  {
    if |bs| == 0 then [] else bs[0] + Concat(bs[1..])
  }

  predicate AllItemBlocks(bs: seq<seq<byte>>)
  {
    forall i :: 0 <= i < |bs| ==> IsItemBlock(bs[i])
  }

  /** The IndexError raised out of `read_hid_binary_items` when the input
      ends inside an item. */
  datatype ReadError = IncompleteItem

  /** The loop of `read_hid_binary_items`: blocks are read until the input
      ends cleanly at a header. The blocks always tile the input. */
  function ReadItems(s: seq<byte>): (r: Result<seq<seq<byte>>, ReadError>)
    ensures r.Ok? ==> AllItemBlocks(r.value) && Concat(r.value) == s
    decreases |s|
  {
    match NextItemBytes(s)
    case EndOfInput => Ok([])
    case Truncated => Err(IncompleteItem)
    case Block(b, rest) =>
      match ReadItems(rest)
      case Err(e) => Err(e)
      case Ok(bs) =>
        assert ([b] + bs)[1..] == bs;
        Ok([b] + bs)
  }

  /** Reading succeeds exactly on a sequence of complete item blocks, and gives
      back those blocks. */
  lemma {:induction false} ReadItemsOfConcat(bs: seq<seq<byte>>)
    requires AllItemBlocks(bs)
    ensures ReadItems(Concat(bs)) == Ok(bs)
    decreases |bs|
  {
    if |bs| > 0 {
      NextItemBytesOfBlock(bs[0], Concat(bs[1..]));
      ReadItemsOfConcat(bs[1..]);
      assert [bs[0]] + bs[1..] == bs;
    }
  }

  /** Input that ends part-way into an item block is an IndexError, never the
      clean end of input, whatever complete blocks precede it. */
  lemma {:induction false} TruncatedBlockFails(bs: seq<seq<byte>>, b: seq<byte>, j: nat)
    requires AllItemBlocks(bs) && IsItemBlock(b) && 0 < j < |b|
    ensures ReadItems(Concat(bs) + b[..j]) == Err(IncompleteItem)
    decreases |bs|
  {
    if |bs| == 0 {
      var t := b[..j];
      assert Concat(bs) + t == t;
      forall k | 0 <= k <= |t| ensures !IsItemBlock(t[..k]) {
        assert t[..k] == b[..k];
        if k > 0 {
          assert b[..k][0] == b[0];
          if k >= 3 {
            assert b[..k][1] == b[1];
          }
        }
      }
    } else {
      assert Concat(bs) + b[..j] == bs[0] + (Concat(bs[1..]) + b[..j]);
      NextItemBytesOfBlock(bs[0], Concat(bs[1..]) + b[..j]);
      TruncatedBlockFails(bs[1..], b, j);
    }
  }

  /** One decoded item: `{type, tag, data}`. */
  datatype Item = Item(itemType: nat, tag: nat, data: seq<byte>)

  /** What `parse_item_bytes` needs so as not to raise: a header byte, and for
      a long item the dataSize and longTag bytes. */
  predicate Parseable(buf: seq<byte>)
  {
    |buf| >= 1 && (IsLongItem(buf[0]) ==> |buf| >= 3)
  }

  /** `parse_item_bytes`. A long item keeps the header's type 3; its tag is
      the longTag byte and its data starts after it. */
  function ParseItemBytes(buf: seq<byte>): (item: Item)
    requires Parseable(buf)
    ensures item.itemType == ParseMeta(buf[0]).itemType
    ensures IsLongItem(buf[0]) ==> item.itemType == 3 && item.tag == buf[2] as nat && buf == buf[..3] + item.data
    ensures !IsLongItem(buf[0]) ==> item.tag == ParseMeta(buf[0]).tag && buf == buf[..1] + item.data
  {
    var m := ParseMeta(buf[0]);
    if IsLongItem(buf[0]) then Item(m.itemType, buf[2] as nat, buf[3..])
    else Item(m.itemType, m.tag, buf[1..])
  }

  /** Every block the reader produces can be decoded. */
  lemma ItemBlockParseable(b: seq<byte>)
    requires IsItemBlock(b)
    ensures Parseable(b)
  {
  }

  /** The data of a decoded short block is exactly its payload, and that of a
      long block is exactly dataSize bytes. */
  lemma ParsedDataLength(b: seq<byte>)
    requires IsItemBlock(b)
    ensures !IsLongItem(b[0]) ==> |ParseItemBytes(b).data| == PayloadLength(ParseMeta(b[0]).size)
    ensures IsLongItem(b[0]) ==> |ParseItemBytes(b).data| == b[1] as int
  {
  }

  /** The size code that announces a payload of n bytes. */
  function SizeCode(n: nat): (size: nat)
    requires n == 0 || n == 1 || n == 2 || n == 4
    ensures size < 4 && PayloadLength(size) == n
  {
    if n == 4 then 3 else n
  }

  /** Can a short item with these fields be written? A header with size 2,
      type 3 and tag 15 would read back as a long item. */
  predicate ShortEncodable(itemType: nat, tag: nat, data: seq<byte>)
  {
    itemType < 4 && tag < 16 && (|data| == 0 || |data| == 1 || |data| == 2 || |data| == 4)
    && !(|data| == 2 && itemType == 3 && tag == 0x0F)
  }

  /** The block of a short item. */
  function EncodeShortItem(itemType: nat, tag: nat, data: seq<byte>): (b: seq<byte>)
    requires ShortEncodable(itemType, tag, data)
  {
    [MetaByte(Meta(SizeCode(|data|), itemType, tag))] + data
  }

  /** The block of a long item. */
  function EncodeLongItem(longTag: byte, data: seq<byte>): (b: seq<byte>)
    requires |data| < 0x100
  {
    [0xFE, |data| as byte, longTag] + data
  }

  /** A written short item is one block and decodes to its own fields. */
  lemma ShortItemRoundTrip(itemType: nat, tag: nat, data: seq<byte>)
    requires ShortEncodable(itemType, tag, data)
    ensures IsItemBlock(EncodeShortItem(itemType, tag, data))
    ensures ParseItemBytes(EncodeShortItem(itemType, tag, data)) == Item(itemType, tag, data)
  {
    var m := Meta(SizeCode(|data|), itemType, tag);
    var h := MetaByte(m);
    MetaRoundTrip(h, m);
    LongItemHeader(h);
    assert !IsLongItem(h);
    var b := EncodeShortItem(itemType, tag, data);
    assert b[0] == h;
    assert b[1..] == data;
  }

  /** A written long item is one block and decodes to type 3, its long tag and
      its data. */
  lemma LongItemRoundTrip(longTag: byte, data: seq<byte>)
    requires |data| < 0x100
    ensures IsItemBlock(EncodeLongItem(longTag, data))
    ensures ParseItemBytes(EncodeLongItem(longTag, data)) == Item(3, longTag as nat, data)
  {
    var b := EncodeLongItem(longTag, data);
    LongItemHeader(b[0]);
    assert b[3..] == data;
  }

  predicate AllParseable(bufs: seq<seq<byte>>)
  {
    forall i :: 0 <= i < |bufs| ==> Parseable(bufs[i])
  }

  /** `parse_item_bytes` applied to every block, as the drivers do item by item. */
  function ParseAll(bufs: seq<seq<byte>>): (items: seq<Item>)
    requires AllParseable(bufs)
    ensures |items| == |bufs|
    ensures forall i :: 0 <= i < |bufs| ==> items[i] == ParseItemBytes(bufs[i])
  {
    if |bufs| == 0 then [] else ParseAll(bufs[..|bufs| - 1]) + [ParseItemBytes(bufs[|bufs| - 1])]
  }
}

=== FILE: hid_state.dfy ===
/** `get_state_tables` of hid_state.py: replays a descriptor through the state
    machine and, at every Main item, takes a copy of the live table as it
    is just before that item is applied. The loop is written over any step
    with the contract of `update_state_table`, and used with
    `UpdateStateTable`. */
module Snapshots {
  import opened Results
  import opened HidRead
  import opened StateTable

  /** `(idx, item, dup)`: the Main item's index, its raw block and the copy
      of the live table. */
  datatype Snapshot = Snapshot(index: nat, item: seq<byte>, table: Table)

  /** The positions of the Main items from position i on, in order. */
  function MainPositionsFrom(items: seq<Item>, i: nat): (ps: seq<nat>)
    requires i <= |items|
    ensures forall k :: 0 <= k < |ps| ==> i <= ps[k] < |items|
    decreases |items| - i
  {
    if i == |items| then []
    else (if IsMain(items[i]) then [i] else []) + MainPositionsFrom(items, i + 1)
  }

  /** The positions listed are exactly the Main items from i on, each once,
      in increasing order. */
  lemma {:induction false} MainPositionsFromSpec(items: seq<Item>, i: nat)
    requires i <= |items|
    ensures var ps := MainPositionsFrom(items, i);
      && (forall p :: p in ps <==> i <= p < |items| && IsMain(items[p]))
      && (forall a, b :: 0 <= a < b < |ps| ==> ps[a] < ps[b])
    decreases |items| - i
  {
    if i < |items| {
      MainPositionsFromSpec(items, i + 1);
    }
  }

  /** What the driver does at item i when the replay reaches it: a Main item
      on an empty stack fails at `stack[-1]`, and otherwise the item fails
      when the step fails. None when item i does not fail, or is never
      reached. */
  function FailureAt(step: StepFn, items: seq<Item>, i: nat): (e: Option<StateError>)
    requires i < |items|
  {
    match Replay(step, items, i)
    case Err(_) => None
    case Ok(s) =>
      if IsMain(items[i]) && |s| == 0 then Some(EmptyStack(i))
      else
        match step(s, items[i], i)
        case Err(e) => Some(e)
        case Ok(_) => None
  }

  /** The snapshot taken at Main item p: its index, its block, and the live
      table of the replay just before it (the empty table where there is
      none, which the driver never reaches). */
  function SnapshotAt(step: StepFn, blocks: seq<seq<byte>>, items: seq<Item>, p: nat): (snap: Snapshot)
    requires p < |items| && |blocks| == |items|
  {
    var table := match Replay(step, items, p)
      case Ok(s) => if |s| > 0 then Top(s) else map[]
      case Err(_) => map[];
    Snapshot(p, blocks[p], table)
  }

  /** The loop of `get_state_tables` from item i on, on the stack built so
      far: the snapshots of the Main items still to come. */
  function SnapshotsFrom(step: StepFn, blocks: seq<seq<byte>>, items: seq<Item>, i: nat, stack: Stack)
    : (r: Result<seq<Snapshot>, StateError>)
    requires i <= |items| && |blocks| == |items|
    decreases |items| - i
  {
    if i == |items| then Ok([])
    else if IsMain(items[i]) && |stack| == 0 then Err(EmptyStack(i))
    else
      match step(stack, items[i], i)
      case Err(e) => Err(e)
      case Ok(u) =>
        match SnapshotsFrom(step, blocks, items, i + 1, u.stack)
        case Err(e) => Err(e)
        case Ok(rest) =>
          Ok((if IsMain(items[i]) then [Snapshot(i, blocks[i], Top(stack))] else []) + rest)
  }

  /** The loop, started on the replayed stack, fails exactly when some item
      still to come fails, and then with the error of the first one. */
  lemma {:induction false} SnapshotsFromFails(step: StepFn, blocks: seq<seq<byte>>, items: seq<Item>, i: nat, stack: Stack)
    requires i <= |items| && |blocks| == |items|
    requires Replay(step, items, i) == Ok(stack)
    ensures var r := SnapshotsFrom(step, blocks, items, i, stack);
      && (r.Err? <==> exists j :: i <= j < |items| && FailureAt(step, items, j).Some?)
      && (r.Err? ==> exists j ::
            (&& i <= j < |items| && FailureAt(step, items, j) == Some(r.error)
             && forall m :: i <= m < j ==> FailureAt(step, items, m).None?))
    decreases |items| - i
  {
    if i < |items| {
      var r := SnapshotsFrom(step, blocks, items, i, stack);
      if IsMain(items[i]) && |stack| == 0 {
        assert FailureAt(step, items, i) == Some(r.error);
      } else {
        match step(stack, items[i], i)
        case Err(e) =>
          assert FailureAt(step, items, i) == Some(e);
        case Ok(u) =>
          assert FailureAt(step, items, i).None?;
          ReplayStep(step, items, i);
          SnapshotsFromFails(step, blocks, items, i + 1, u.stack);
          var rest := SnapshotsFrom(step, blocks, items, i + 1, u.stack);
          assert r.Err? <==> rest.Err?;
          if r.Err? {
            assert r.error == rest.error;
            var j :| i + 1 <= j < |items| && FailureAt(step, items, j) == Some(rest.error)
              && forall m :: i + 1 <= m < j ==> FailureAt(step, items, m).None?;
            assert forall m :: i <= m < j ==> FailureAt(step, items, m).None?;
          }
          if exists j :: i <= j < |items| && FailureAt(step, items, j).Some? {
            var j :| i <= j < |items| && FailureAt(step, items, j).Some?;
            assert j != i;
          }
      }
    }
  }

  /** The loop, started on the replayed stack, gives one snapshot per Main
      item still to come, in order, each the replay's live table just before
      its item. */
  lemma {:induction false} SnapshotsFromContents(step: StepFn, blocks: seq<seq<byte>>, items: seq<Item>, i: nat, stack: Stack)
    requires i <= |items| && |blocks| == |items|
    requires Replay(step, items, i) == Ok(stack)
    ensures var r := SnapshotsFrom(step, blocks, items, i, stack);
      var ps := MainPositionsFrom(items, i);
      r.Ok? ==> |r.value| == |ps| && forall k :: 0 <= k < |ps| ==> r.value[k] == SnapshotAt(step, blocks, items, ps[k])
    decreases |items| - i
  {
    if i < |items| && !(IsMain(items[i]) && |stack| == 0) {
      match step(stack, items[i], i)
      case Err(e) =>
      case Ok(u) =>
        ReplayStep(step, items, i);
        SnapshotsFromContents(step, blocks, items, i + 1, u.stack);
        if IsMain(items[i]) {
          assert SnapshotAt(step, blocks, items, i) == Snapshot(i, blocks[i], Top(stack));
        }
    }
  }

  /** The replay keeps every Local entry used. */
  lemma {:induction false} ReplayKeepsLocalsUsed(step: StepFn, items: seq<Item>, n: nat)
    requires KeepsLocalsUsed(step)
    requires n <= |items|
    ensures Replay(step, items, n).Ok? ==> LocalsUsed(Replay(step, items, n).value)
    decreases n
  {
    if n > 0 {
      ReplayKeepsLocalsUsed(step, items, n - 1);
      ReplayStep(step, items, n - 1);
      var r := Replay(step, items, n - 1);
      if r.Ok? {
        assert KeepsLocalsUsedAt(step, r.value, items[n - 1], n - 1);
      }
    }
  }

  /** Every Local entry of a snapshot is used, for a step that keeps Local
      entries used. */
  lemma SnapshotLocalsUsed(step: StepFn, blocks: seq<seq<byte>>, items: seq<Item>, p: nat)
    requires KeepsLocalsUsed(step)
    requires p < |items| && |blocks| == |items|
    ensures forall k :: k in SnapshotAt(step, blocks, items, p).table && IsLocalKey(k) ==>
      SnapshotAt(step, blocks, items, p).table[k].used
  {
    ReplayKeepsLocalsUsed(step, items, p);
  }

  /** The whole loop over a decoded descriptor with its blocks, for any step
      with the contract of `update_state_table`. */
  function SnapshotsOf(step: StepFn, blocks: seq<seq<byte>>, items: seq<Item>): (r: Result<seq<Snapshot>, StateError>)
    requires |blocks| == |items|
    ensures r.Err? <==> exists j :: 0 <= j < |items| && FailureAt(step, items, j).Some?
    ensures r.Err? ==> exists j ::
      (&& 0 <= j < |items| && FailureAt(step, items, j) == Some(r.error)
       && forall m :: 0 <= m < j ==> FailureAt(step, items, m).None?)
    ensures r.Ok? ==> |r.value| == |MainPositionsFrom(items, 0)|
    ensures r.Ok? ==> forall k :: 0 <= k < |r.value| ==>
      r.value[k] == SnapshotAt(step, blocks, items, MainPositionsFrom(items, 0)[k])
  {
    assert Replay(step, items, 0) == Ok([]);
    SnapshotsFromFails(step, blocks, items, 0, []);
    SnapshotsFromContents(step, blocks, items, 0, []);
    SnapshotsFrom(step, blocks, items, 0, [])
  }

  /** `get_state_tables`: one snapshot per Main item, in item order, each
      holding the item's index, its raw block and a copy of the live table
      just before the item is applied (so it may still hold Local
      attributes). It fails at the first item that fails: a Reserved item,
      or a Main item met by an empty stack. */
  function GetStateTables(items: seq<seq<byte>>): (r: Result<seq<Snapshot>, StateError>)
    requires AllParseable(items)
    ensures r.Err? <==> exists j :: 0 <= j < |ParseAll(items)| && FailureAt(UpdateStateTable, ParseAll(items), j).Some?
    ensures r.Err? ==> exists j ::
      (&& 0 <= j < |ParseAll(items)| && FailureAt(UpdateStateTable, ParseAll(items), j) == Some(r.error)
       && forall m :: 0 <= m < j ==> FailureAt(UpdateStateTable, ParseAll(items), m).None?)
    ensures r.Ok? ==> |r.value| == |MainPositionsFrom(ParseAll(items), 0)|
    ensures r.Ok? ==> forall k :: 0 <= k < |r.value| ==>
      r.value[k] == SnapshotAt(UpdateStateTable, items, ParseAll(items), MainPositionsFrom(ParseAll(items), 0)[k])
  {
    SnapshotsOf(UpdateStateTable, items, ParseAll(items))
  }

  /** The replay of a prefix agrees with the replay of the whole. */
  lemma ReplayOfPrefix(step: StepFn, items: seq<Item>, n: nat, i: nat)
    requires i <= n <= |items|
    ensures Replay(step, items[..n], i) == Replay(step, items, i)
  {
    assert items[..n][..i] == items[..i];
  }

  /** The Main positions of a descriptor are those of a prefix followed by
      those after it. */
  lemma {:induction false} MainPositionsSplit(items: seq<Item>, n: nat, i: nat)
    requires i <= n <= |items|
    ensures MainPositionsFrom(items, i) == MainPositionsFrom(items[..n], i) + MainPositionsFrom(items, n)
    decreases n - i
  {
    if i < n {
      MainPositionsSplit(items, n, i + 1);
      assert items[..n][i] == items[i];
    }
  }

  /** Snapshots are copies: running the loop on a longer descriptor leaves
      the snapshots of a prefix as they were. */
  lemma SnapshotsOfPrefix(step: StepFn, blocks: seq<seq<byte>>, items: seq<Item>, n: nat)
    requires |blocks| == |items| && n <= |items|
    requires SnapshotsOf(step, blocks, items).Ok?
    ensures SnapshotsOf(step, blocks[..n], items[..n]).Ok?
    ensures SnapshotsOf(step, blocks[..n], items[..n]).value <= SnapshotsOf(step, blocks, items).value
  {
    var whole := SnapshotsOf(step, blocks, items).value;
    var part := SnapshotsOf(step, blocks[..n], items[..n]);
    forall j | 0 <= j < n ensures FailureAt(step, items[..n], j) == FailureAt(step, items, j) {
      ReplayOfPrefix(step, items, n, j);
    }
    MainPositionsSplit(items, n, 0);
    var ps := MainPositionsFrom(items[..n], 0);
    forall k | 0 <= k < |ps|
      ensures SnapshotAt(step, blocks[..n], items[..n], ps[k]) == SnapshotAt(step, blocks, items, ps[k])
    {
      ReplayOfPrefix(step, items, n, ps[k]);
    }
    assert MainPositionsFrom(items, 0)[..|ps|] == ps;
  }

  /** Every Local entry of every snapshot `get_state_tables` returns is
      used. */
  lemma GetStateTablesLocalsUsed(items: seq<seq<byte>>)
    requires AllParseable(items)
    ensures var r := GetStateTables(items);
      r.Ok? ==> forall k, key :: 0 <= k < |r.value| && key in r.value[k].table && IsLocalKey(key) ==>
        r.value[k].table[key].used
  {
    var r := GetStateTables(items);
    if r.Ok? {
      UpdateStateTableContract();
      var ps := MainPositionsFrom(ParseAll(items), 0);
      forall k | 0 <= k < |r.value|
        ensures forall key :: key in r.value[k].table && IsLocalKey(key) ==> r.value[k].table[key].used
      {
        SnapshotLocalsUsed(UpdateStateTable, items, ParseAll(items), ps[k]);
      }
    }
  }

  /** A descriptor whose first item is a Main item fails at `stack[-1]`. */
  lemma MainItemFirstFails(items: seq<seq<byte>>)
    requires AllParseable(items) && |items| > 0 && IsMain(ParseItemBytes(items[0]))
    ensures GetStateTables(items) == Err(EmptyStack(0))
  {
    assert Replay(UpdateStateTable, ParseAll(items), 0) == Ok([]);
    assert FailureAt(UpdateStateTable, ParseAll(items), 0) == Some(EmptyStack(0));
  }

  /** A replay that fails stops at an item where the driver fails too. */
  lemma {:induction false} ReplayFailureIsDriverFailure(step: StepFn, items: seq<Item>, n: nat)
    requires n <= |items|
    ensures Replay(step, items, n).Err? ==> exists j :: 0 <= j < n && FailureAt(step, items, j).Some?
    decreases n
  {
    if n > 0 {
      ReplayFailureIsDriverFailure(step, items, n - 1);
      ReplayStep(step, items, n - 1);
      if Replay(step, items, n).Err? && Replay(step, items, n - 1).Ok? {
        assert FailureAt(step, items, n - 1).Some?;
      }
    }
  }

  /** Without a Push, the replayed stack never holds more than the base
      table. */
  lemma {:induction false} NoPushKeepsBase(items: seq<Item>, n: nat)
    requires n <= |items|
    requires forall j :: 0 <= j < n ==> !IsPush(items[j])
    ensures Replay(UpdateStateTable, items, n).Ok? ==> |Replay(UpdateStateTable, items, n).value| <= 1
    decreases n
  {
    if n > 0 {
      NoPushKeepsBase(items, n - 1);
      ReplayStep(UpdateStateTable, items, n - 1);
      var r := Replay(UpdateStateTable, items, n - 1);
      if r.Ok? && UpdateStateTable(r.value, items[n - 1], n - 1).Ok? {
        UpdateWithoutPushKeepsBase(r.value, items[n - 1], n - 1);
      }
    }
  }

  /** A Main item right after a Pop of the base table finds the stack
      empty, so the descriptor fails: the Pop leaves no table, and
      `stack[-1]` raises before the Main item is applied. */
  lemma MainItemAfterBasePopFails(items: seq<seq<byte>>, i: nat)
    requires AllParseable(items) && i + 1 < |items|
    requires Replay(UpdateStateTable, ParseAll(items), i).Ok?
    requires |Replay(UpdateStateTable, ParseAll(items), i).value| <= 1
    requires IsPop(ParseItemBytes(items[i])) && IsMain(ParseItemBytes(items[i + 1]))
    ensures GetStateTables(items).Err?
  {
    var decoded := ParseAll(items);
    var s := Replay(UpdateStateTable, decoded, i).value;
    ReplayStep(UpdateStateTable, decoded, i);
    PopOfBaseEmptiesStack(s, decoded[i], i);
    assert FailureAt(UpdateStateTable, decoded, i + 1) == Some(EmptyStack(i + 1));
  }

  /** In particular, a Pop with no Push anywhere before it pops the base
      table, so a Main item right after it makes the descriptor fail. */
  lemma MainItemAfterUnpushedPopFails(items: seq<seq<byte>>, i: nat)
    requires AllParseable(items) && i + 1 < |items|
    requires forall j :: 0 <= j < i ==> !IsPush(ParseItemBytes(items[j]))
    requires IsPop(ParseItemBytes(items[i])) && IsMain(ParseItemBytes(items[i + 1]))
    ensures GetStateTables(items).Err?
  {
    var decoded := ParseAll(items);
    NoPushKeepsBase(decoded, i);
    if Replay(UpdateStateTable, decoded, i).Ok? {
      MainItemAfterBasePopFails(items, i);
    } else {
      ReplayFailureIsDriverFailure(UpdateStateTable, decoded, i);
    }
  }

  /** `get_state_tables` on a prefix of a descriptor that succeeds succeeds
      too, with a prefix of its snapshots: later items never change an
      emitted snapshot. */
  lemma GetStateTablesPrefix(items: seq<seq<byte>>, n: nat)
    requires AllParseable(items) && n <= |items|
    requires GetStateTables(items).Ok?
    ensures AllParseable(items[..n])
    ensures GetStateTables(items[..n]).Ok? && GetStateTables(items[..n]).value <= GetStateTables(items).value
  {
    assert ParseAll(items[..n]) == ParseAll(items)[..n];
    SnapshotsOfPrefix(UpdateStateTable, items, ParseAll(items), n);
  }
}

=== FILE: hid_state_table.dfy ===
/** The scoped state machine that hid_importance.py and hid_state.py both
    carry, as identical copies (`_add_state`, `_mark_global_state`,
    `_remove_local_state`, `update_state_table`): a stack of attribute tables
    keyed by item type and tag, with Push and Pop and the clearing of Local
    attributes at each Main item. It is defined once here and both drivers
    use it. */
module StateTable {
  import opened Results
  import opened HidRead

  /** The `(type, tag)` key of an attribute. */
  datatype Key = Key(itemType: nat, tag: nat)

  /** `{"value": data, "used": bool, "index": idx}`. */
  datatype Entry = Entry(value: seq<byte>, used: bool, index: nat)

  type Table = map<Key, Entry>

  /** The scope stack; the live table is the last one (`stack[-1]`). */
  type Stack = seq<Table>

  const MAIN: nat := 0
  const GLOBAL: nat := 1
  const LOCAL: nat := 2
  const PUSH: nat := 0x0A
  const POP: nat := 0x0B

  function ItemKey(item: Item): (k: Key)
  {
    Key(item.itemType, item.tag)
  }

  /** `_table_key_is_local`. */
  predicate IsLocalKey(k: Key)
  {
    k.itemType == LOCAL
  }

  predicate IsMain(item: Item)
  {
    item.itemType == MAIN
  }

  predicate IsPush(item: Item)
  {
    item.itemType == GLOBAL && item.tag == PUSH
  }

  predicate IsPop(item: Item)
  {
    item.itemType == GLOBAL && item.tag == POP
  }

  /** The items that go through the record-or-suppress rule: every Local
      item, and every Global item other than Push and Pop. */
  predicate IsAttributeItem(item: Item)
  {
    item.itemType == LOCAL || (item.itemType == GLOBAL && item.tag != PUSH && item.tag != POP)
  }

  /** The table after `_add_state`, and its return value: the index of an
      item the rule reports as redundant ("removable" in the source), or
      None. */
  datatype Added = Added(table: Table, removable: Option<nat>)

  /** `_add_state`: the record-or-suppress rule. A repeated value makes the
      new item removable; a different value over an unused entry makes the
      old item removable and, as written, leaves the old entry in place;
      otherwise the new value is recorded, used at once when it is Local. */
  function AddState(t: Table, item: Item, idx: nat): (r: Added)
    ensures var k := ItemKey(item);
      && (r.removable.Some? ==> r.table == t)
      && (r.removable.None? ==> r.table == t[k := Entry(item.data, IsLocalKey(k), idx)])
      && (r.removable.None? <==> k !in t || (t[k].value != item.data && t[k].used))
      && (k in t && t[k].value == item.data ==> r.removable == Some(idx))
      && (k in t && t[k].value != item.data && !t[k].used ==> r.removable == Some(t[k].index))
  {
    var k := ItemKey(item);
    if k in t && t[k].value == item.data then Added(t, Some(idx))
    else if k in t && !t[k].used then Added(t, Some(t[k].index))
    else Added(t[k := Entry(item.data, IsLocalKey(k), idx)], None)
  }

  /** `_remove_local_state`: the Global entries, unchanged. */
  function RemoveLocalState(t: Table): (r: Table)
    ensures forall k :: k in r <==> k in t && !IsLocalKey(k)
    ensures forall k :: k in r ==> r[k] == t[k]
  {
    map k | k in t && !IsLocalKey(k) :: t[k]
  }

  /** `_mark_global_state`: every Global entry becomes used and keeps its
      value and index; Local entries are untouched. */
  function MarkGlobalState(t: Table): (r: Table)
    ensures r.Keys == t.Keys
    ensures forall k :: k in r && !IsLocalKey(k) ==> r[k] == t[k].(used := true)
    ensures forall k :: k in r && IsLocalKey(k) ==> r[k] == t[k]
  {
    map k | k in t :: if IsLocalKey(k) then t[k] else t[k].(used := true)
  }

  /** The stack that `update_state_table` works on: an empty stack first gets
      a fresh empty table. */
  function EnsureBase(stack: Stack): (s: Stack)
    ensures |s| > 0
    ensures |stack| > 0 ==> s == stack
    ensures |stack| == 0 ==> s == [map[]]
  {
    if |stack| == 0 then [map[]] else stack
  }

  function Top(s: Stack): (t: Table)
    requires |s| > 0
  {
    s[|s| - 1]
  }

  /** The stack with its live table replaced. */
  function WithTop(s: Stack, t: Table): (r: Stack)
    requires |s| > 0
    ensures |r| == |s| && Top(r) == t && r[..|r| - 1] == s[..|s| - 1]
  {
    s[..|s| - 1] + [t]
  }

  /** The effect of a Main item: lower frames unchanged, the live table loses
      its Local keys, and every entry left is used with its value and index
      unchanged. */
  ghost predicate MainItemEffect(before: Stack, after: Stack)
  {
    && |before| > 0 && |after| == |before|
    && after[..|after| - 1] == before[..|before| - 1]
    && (forall k :: k in Top(after) <==> k in Top(before) && !IsLocalKey(k))
    && (forall k :: k in Top(after) ==> Top(after)[k] == Top(before)[k].(used := true))
  }

  /** The NotImplementedError of a Reserved item, and the IndexError of
      `stack[-1]` in hid_state.py's driver when a Main item meets an empty
      stack. */
  datatype StateError = UnknownItemType(itemType: nat, index: nat) | EmptyStack(index: nat)

  /** The stack after `update_state_table`, and its return value. */
  datatype Updated = Updated(stack: Stack, removable: Option<nat>)

  /** `update_state_table`. */
  function UpdateStateTable(stack: Stack, item: Item, idx: nat): (r: Result<Updated, StateError>)
    ensures r.Err? <==> item.itemType > LOCAL
    ensures r.Err? ==> r.error == UnknownItemType(item.itemType, idx)
    ensures r.Ok? && !IsAttributeItem(item) ==> r.value.removable.None?
  {
    var base := EnsureBase(stack);
    var top := Top(base);
    if IsMain(item) then
      Ok(Updated(WithTop(base, MarkGlobalState(RemoveLocalState(top))), None))
    else if item.itemType == GLOBAL then
      if item.tag == PUSH then
        Ok(Updated(base + [top], None))
      else if item.tag == POP then
        Ok(Updated(base[..|base| - 1], None))
      else
        var a := AddState(top, item, idx);
        Ok(Updated(WithTop(base, a.table), a.removable))
    else if item.itemType == LOCAL then
      var a := AddState(top, item, idx);
      Ok(Updated(WithTop(base, a.table), a.removable))
    else
      Err(UnknownItemType(item.itemType, idx))
  }

  /** A Main item clears the Local keys of the live table and marks what is
      left used; lower frames are untouched. */
  lemma MainItemClearsLocals(stack: Stack, item: Item, idx: nat)
    requires IsMain(item)
    ensures UpdateStateTable(stack, item, idx).Ok?
    ensures MainItemEffect(EnsureBase(stack), UpdateStateTable(stack, item, idx).value.stack)
  {
  }

  /** Push makes the stack one longer, with a copy of the live table on top
      of the unchanged frames. */
  lemma PushDuplicatesTop(stack: Stack, item: Item, idx: nat)
    requires IsPush(item)
    ensures var base := EnsureBase(stack);
      var s := UpdateStateTable(stack, item, idx).value.stack;
      |s| == |base| + 1 && s[..|base|] == base && Top(s) == Top(base)
  {
  }

  /** Pop discards the live table and never fails. */
  lemma PopDiscardsTop(stack: Stack, item: Item, idx: nat)
    requires IsPop(item)
    ensures var base := EnsureBase(stack);
      UpdateStateTable(stack, item, idx) == Ok(Updated(base[..|base| - 1], None))
  {
  }

  /** Every other Global item, and every Local item, goes through the
      record-or-suppress rule on the live table only. */
  lemma AttributeItemAddsState(stack: Stack, item: Item, idx: nat)
    requires IsAttributeItem(item)
    ensures var base := EnsureBase(stack);
      var a := AddState(Top(base), item, idx);
      UpdateStateTable(stack, item, idx) == Ok(Updated(WithTop(base, a.table), a.removable))
  {
  }

  /** A Push followed at once by a Pop gives back the stack. */
  lemma PushThenPop(stack: Stack, push: Item, pop: Item, i: nat, j: nat)
    requires |stack| > 0 && IsPush(push) && IsPop(pop)
    ensures UpdateStateTable(UpdateStateTable(stack, push, i).value.stack, pop, j).value.stack == stack
  {
  }

  /** Pop never fails: on the lone base table, or on an empty stack (which
      first gets a base table), it leaves the stack empty. */
  lemma PopOfBaseEmptiesStack(stack: Stack, pop: Item, i: nat)
    requires |stack| <= 1 && IsPop(pop)
    ensures UpdateStateTable(stack, pop, i) == Ok(Updated([], None))
  {
  }

  /** An update that is not a Push never takes the stack above one table. */
  lemma UpdateWithoutPushKeepsBase(s: Stack, item: Item, idx: nat)
    requires |s| <= 1 && !IsPush(item) && UpdateStateTable(s, item, idx).Ok?
    ensures |UpdateStateTable(s, item, idx).value.stack| <= 1
  {
  }

  /** Usage Page 1, Usage Page 1, Input: the repeated Usage Page finds the
      same value recorded, so the update reports its own index (1), not the
      first one's; the Input item then marks the entry used. */
  lemma RepeatedValueReportsLaterItem()
    ensures var k := Key(GLOBAL, 0);
      var page := Item(GLOBAL, 0, [0x01]);
      && UpdateStateTable([], page, 0) == Ok(Updated([map[k := Entry([0x01], false, 0)]], None))
      && UpdateStateTable([map[k := Entry([0x01], false, 0)]], page, 1) == Ok(Updated([map[k := Entry([0x01], false, 0)]], Some(1)))
      && UpdateStateTable([map[k := Entry([0x01], false, 0)]], Item(MAIN, 8, [0x02]), 2)
         == Ok(Updated([map[k := Entry([0x01], true, 0)]], None))
  {
    var k := Key(GLOBAL, 0);
    var t := MarkGlobalState(RemoveLocalState(map[k := Entry([0x01], false, 0)]));
    assert t.Keys == {k};
    assert t == map[k := Entry([0x01], true, 0)];
  }

  /** Logical Minimum 0, Logical Minimum 1, Input: the second Logical
      Minimum meets an unused entry with a different value, so the update
      reports item 0 and keeps value 0, and the Input item sees 0. */
  lemma UnusedOverwriteKeepsOldValue()
    ensures var k := Key(GLOBAL, 1);
      var t := map[k := Entry([0x00], false, 0)];
      && UpdateStateTable([t], Item(GLOBAL, 1, [0x01]), 1) == Ok(Updated([t], Some(0)))
      && UpdateStateTable([t], Item(MAIN, 8, [0x02]), 2) == Ok(Updated([map[k := Entry([0x00], true, 0)]], None))
  {
    var k := Key(GLOBAL, 1);
    var t := MarkGlobalState(RemoveLocalState(map[k := Entry([0x00], false, 0)]));
    assert t.Keys == {k};
    assert t == map[k := Entry([0x00], true, 0)];
  }

  /** Every Local entry of every frame is used. */
  predicate LocalsUsed(stack: Stack)
  {
    forall f, k :: 0 <= f < |stack| && k in stack[f] && IsLocalKey(k) ==> stack[f][k].used
  }

  /** Local entries are recorded as used, so no update ever holds an unused
      Local entry. */
  lemma UpdateKeepsLocalsUsed(stack: Stack, item: Item, idx: nat)
    requires LocalsUsed(stack)
    requires UpdateStateTable(stack, item, idx).Ok?
    ensures LocalsUsed(UpdateStateTable(stack, item, idx).value.stack)
  {
    var s: Stack := UpdateStateTable(stack, item, idx).value.stack;
    var base := EnsureBase(stack);
    forall f: nat, k: Key | f < |s| && k in s[f] && IsLocalKey(k) ensures s[f][k].used {
      if f < |base| - 1 || (IsPush(item) && f < |base|) {
        assert s[f] == base[f];
      }
    }
  }

  /** Every entry of every frame was recorded by an item in `allowed`. */
  predicate IndicesWithin(stack: Stack, allowed: set<nat>)
  {
    forall f, k :: 0 <= f < |stack| && k in stack[f] ==> stack[f][k].index in allowed
  }

  /** An update only records the current index, and only for an attribute
      item; the index it reports as removable is the current one or one
      already recorded. */
  lemma UpdateKeepsIndicesWithin(stack: Stack, item: Item, idx: nat, allowed: set<nat>)
    requires IndicesWithin(stack, allowed)
    requires IsAttributeItem(item) ==> idx in allowed
    requires UpdateStateTable(stack, item, idx).Ok?
    ensures var u := UpdateStateTable(stack, item, idx).value;
      IndicesWithin(u.stack, allowed) && (u.removable.Some? ==> u.removable.value in allowed)
  {
    var s: Stack := UpdateStateTable(stack, item, idx).value.stack;
    var base := EnsureBase(stack);
    forall f: nat, k: Key | f < |s| && k in s[f] ensures s[f][k].index in allowed {
      if f < |base| - 1 || (IsPush(item) && f < |base|) {
        assert s[f] == base[f];
      }
    }
  }

  /** A state-machine step with the signature of `update_state_table`. The
      replays and the drivers are written over any step, so that what they
      do rests only on the step's contract; they are used with
      `UpdateStateTable`. */
  type StepFn = (Stack, Item, nat) -> Result<Updated, StateError>

  /** A step fails exactly on Reserved items, naming the item and its index. */
  ghost predicate FailsOnReservedOnly(step: StepFn)
  {
    forall s: Stack, item: Item, idx: nat ::
      (step(s, item, idx).Err? <==> item.itemType > LOCAL)
      && (step(s, item, idx).Err? ==> step(s, item, idx).error == UnknownItemType(item.itemType, idx))
  }

  /** A step records only the current index, and only for an attribute item,
      and reports as removable only an index already recorded or the current
      one. */
  ghost predicate KeepsIndicesWithin(step: StepFn)
  {
    forall s: Stack, item: Item, idx: nat, allowed: set<nat> :: KeepsIndicesWithinAt(step, s, item, idx, allowed)
  }

  /** `KeepsIndicesWithin` for one call of the step. */
  ghost predicate KeepsIndicesWithinAt(step: StepFn, s: Stack, item: Item, idx: nat, allowed: set<nat>)
  {
    IndicesWithin(s, allowed) && (IsAttributeItem(item) ==> idx in allowed) && step(s, item, idx).Ok? ==>
      && IndicesWithin(step(s, item, idx).value.stack, allowed)
      && (step(s, item, idx).value.removable.Some? ==> step(s, item, idx).value.removable.value in allowed)
  }

  /** A step never leaves an unused Local entry behind. */
  ghost predicate KeepsLocalsUsed(step: StepFn)
  {
    forall s: Stack, item: Item, idx: nat :: KeepsLocalsUsedAt(step, s, item, idx)
  }

  /** `KeepsLocalsUsed` for one call of the step. */
  ghost predicate KeepsLocalsUsedAt(step: StepFn, s: Stack, item: Item, idx: nat)
  {
    LocalsUsed(s) && step(s, item, idx).Ok? ==> LocalsUsed(step(s, item, idx).value.stack)
  }

  ghost predicate StateMachineContract(step: StepFn)
  {
    FailsOnReservedOnly(step) && KeepsIndicesWithin(step) && KeepsLocalsUsed(step)
  }

  lemma UpdateFailsOnReservedOnly()
    ensures FailsOnReservedOnly(UpdateStateTable)
  {
  }

  lemma UpdateKeepsAllIndicesWithin()
    ensures KeepsIndicesWithin(UpdateStateTable)
  {
    forall s: Stack, item: Item, idx: nat, allowed: set<nat>
      ensures KeepsIndicesWithinAt(UpdateStateTable, s, item, idx, allowed)
    {
      if IndicesWithin(s, allowed) && (IsAttributeItem(item) ==> idx in allowed) && UpdateStateTable(s, item, idx).Ok? {
        UpdateKeepsIndicesWithin(s, item, idx, allowed);
      }
    }
  }

  lemma UpdateKeepsAllLocalsUsed()
    ensures KeepsLocalsUsed(UpdateStateTable)
  {
    forall s: Stack, item: Item, idx: nat ensures KeepsLocalsUsedAt(UpdateStateTable, s, item, idx) {
      if LocalsUsed(s) && UpdateStateTable(s, item, idx).Ok? {
        UpdateKeepsLocalsUsed(s, item, idx);
      }
    }
  }

  /** `update_state_table` meets the contract the drivers rely on. */
  lemma UpdateStateTableContract()
    ensures StateMachineContract(UpdateStateTable)
  {
    UpdateFailsOnReservedOnly();
    UpdateKeepsAllIndicesWithin();
    UpdateKeepsAllLocalsUsed();
  }

  /** One step of a replay on the stack so far: an error stays, otherwise
      the item is applied. */
  function StepStack(step: StepFn, r: Result<Stack, StateError>, item: Item, idx: nat): (r': Result<Stack, StateError>)
  {
    match r
    case Err(e) => Err(e)
    case Ok(s) =>
      match step(s, item, idx)
      case Err(e) => Err(e)
      case Ok(u) => Ok(u.stack)
  }

  /** Feeds `items` in order to `step`, the first of them at index `start`;
      the first error ends the replay. */
  function Fold(step: StepFn, stack: Stack, items: seq<Item>, start: nat): (r: Result<Stack, StateError>)
    decreases |items|
  {
    if |items| == 0 then Ok(stack)
    else
      var n := |items| - 1;
      StepStack(step, Fold(step, stack, items[..n], start), items[n], start + n)
  }

  /** Replaying two runs back to back is replaying the second from where the
      first stopped. */
  lemma {:induction false} FoldAppend(step: StepFn, stack: Stack, a: seq<Item>, b: seq<Item>, start: nat)
    ensures Fold(step, stack, a + b, start) ==
      match Fold(step, stack, a, start)
      case Err(e) => Err(e)
      case Ok(s) => Fold(step, s, b, start + |a|)
    decreases |b|
  {
    if |b| == 0 {
      assert a + b == a;
    } else {
      var n := |b| - 1;
      var ab := a + b;
      assert ab[..|ab| - 1] == a + b[..n];
      assert ab[|ab| - 1] == b[n];
      FoldAppend(step, stack, a, b[..n], start);
    }
  }

  /** Some item from position i on is Reserved. */
  predicate HasReservedFrom(items: seq<Item>, i: nat)
  {
    exists j :: i <= j < |items| && items[j].itemType > LOCAL
  }

  /** Item j is the first Reserved item from position i on. */
  predicate FirstReservedFrom(items: seq<Item>, i: nat, j: nat)
  {
    && i <= j < |items| && items[j].itemType > LOCAL
    && forall m :: i <= m < j ==> items[m].itemType <= LOCAL
  }

  /** With a step that fails only on Reserved items, a replay fails exactly
      when a Reserved item occurs, and then with the error of the first one. */
  lemma {:induction false} FoldFailsAtFirstReserved(step: StepFn, stack: Stack, items: seq<Item>, start: nat)
    requires FailsOnReservedOnly(step)
    ensures Fold(step, stack, items, start).Err? <==> HasReservedFrom(items, 0)
    ensures Fold(step, stack, items, start).Err? ==> exists i: nat ::
      (FirstReservedFrom(items, 0, i) && Fold(step, stack, items, start).error == UnknownItemType(items[i].itemType, start + i))
    decreases |items|
  {
    if |items| > 0 {
      var n := |items| - 1;
      var prefix := items[..n];
      assert forall i :: 0 <= i < n ==> prefix[i] == items[i];
      FoldFailsAtFirstReserved(step, stack, prefix, start);
      var r := Fold(step, stack, prefix, start);
      if r.Err? {
        var i: nat :| FirstReservedFrom(prefix, 0, i) && r.error == UnknownItemType(prefix[i].itemType, start + i);
        assert FirstReservedFrom(items, 0, i);
      } else if items[n].itemType > LOCAL {
        assert FirstReservedFrom(items, 0, n);
      }
    }
  }

  /** The stack after feeding `items` to `update_state_table` in order, the
      first of them at index `start`. */
  function RunItems(stack: Stack, items: seq<Item>, start: nat): (r: Result<Stack, StateError>)
  {
    Fold(UpdateStateTable, stack, items, start)
  }

  /** A replay through `update_state_table` fails exactly when a Reserved
      item occurs, and then with the error of the first one: no other item
      fails. */
  lemma RunItemsFailsAtFirstReserved(stack: Stack, items: seq<Item>, start: nat)
    ensures RunItems(stack, items, start).Err? <==> HasReservedFrom(items, 0)
    ensures RunItems(stack, items, start).Err? ==> exists i: nat ::
      (FirstReservedFrom(items, 0, i) && RunItems(stack, items, start).error == UnknownItemType(items[i].itemType, start + i))
  {
    UpdateStateTableContract();
    FoldFailsAtFirstReserved(UpdateStateTable, stack, items, start);
  }

  /** Replaying a single item is applying it. */
  lemma RunOne(stack: Stack, item: Item, start: nat)
    ensures RunItems(stack, [item], start) == StepStack(UpdateStateTable, Ok(stack), item, start)
  {
    assert [item][..0] == [];
    assert Fold(UpdateStateTable, stack, [], start) == Ok(stack);
  }

  /** `n` Push items in a row. */
  function Pushes(n: nat): (r: seq<Item>)
    ensures |r| == n && forall i :: 0 <= i < n ==> IsPush(r[i])
  {
    seq(n, i => Item(GLOBAL, PUSH, []))
  }

  /** `n` Pop items in a row. */
  function Pops(n: nat): (r: seq<Item>)
    ensures |r| == n && forall i :: 0 <= i < n ==> IsPop(r[i])
  {
    seq(n, i => Item(GLOBAL, POP, []))
  }

  /** Push/pop symmetry: n Pushes followed by n Pops give back the stack. */
  lemma {:induction false} NestedPushPop(stack: Stack, n: nat, start: nat)
    requires |stack| > 0
    ensures RunItems(stack, Pushes(n) + Pops(n), start) == Ok(stack)
    decreases n
  {
    if n > 0 {
      var push := Pushes(n)[0];
      var pop := Pops(n)[n - 1];
      var inner := Pushes(n - 1) + Pops(n - 1);
      assert Pushes(n) + Pops(n) == [push] + inner + [pop];
      var pushed := stack + [Top(stack)];
      RunOne(stack, push, start);
      PushDuplicatesTop(stack, push, start);
      assert RunItems(stack, [push], start) == Ok(pushed);
      FoldAppend(UpdateStateTable, stack, [push], inner, start);
      NestedPushPop(pushed, n - 1, start + 1);
      FoldAppend(UpdateStateTable, stack, [push] + inner, [pop], start);
      RunOne(pushed, pop, start + 1 + |inner|);
      PopDiscardsTop(pushed, pop, start + 1 + |inner|);
    }
  }

  /** The stack just before item n of a decoded descriptor: its first n
      items fed to `step` from an empty stack. Both drivers start from an
      empty stack and index items from 0. */
  function Replay(step: StepFn, items: seq<Item>, n: nat): (r: Result<Stack, StateError>)
    requires n <= |items|
  {
    Fold(step, [], items[..n], 0)
  }

  /** The replay of one more item applies that item to the stack before it. */
  lemma ReplayStep(step: StepFn, items: seq<Item>, i: nat)
    requires i < |items|
    ensures Replay(step, items, i + 1) == StepStack(step, Replay(step, items, i), items[i], i)
  {
    assert items[..i + 1][..i] == items[..i];
  }
}

=== FILE: results.dfy ===
/** Option and Result types used in place of Python's `None` returns and
    raised exceptions. */
module Results {

  /** Python's `None` or a value. */
  datatype Option<+T> = None | Some(value: T)

  /** Either a value, or the error that the Python code raises instead. */
  datatype Result<+T, +E> = Ok(value: T) | Err(error: E)
}
